=== FILE: README.md ===
# install-boost, modelled in Dafny

install-boost is a GitHub Action that installs a prebuilt Boost. It
downloads a JSON *versions manifest*, then resolves the requested Boost
version, toolset and platform version to one archive (`parseArguments`).
It creates the root directory, downloads the archive, derives the archive's
*base name* by cutting two dot-suffixes off the file name, and extracts it.
The `installV1` and `installV2` installers then remove the archive; `main`
of src/index.ts leaves it in place. Every installer sets the outputs
`BOOST_ROOT` and `BOOST_VER`. The legacy installer can also restore
and save the installation through the Actions cache, under a key built from
the request.

This project models:

- the resolver, once as a recursive specification and once as the
  source's loop;
- the JavaScript string operations the resolver and installers depend on;
- the base-name derivation and the extraction and cleanup commands;
- the cache key;
- the four installer entry points.

Each installer is a pure function. It takes the answers of its
collaborators (network, archive tool, cache service) as a `World` value.
It returns a `Run`: the trace of steps it took and its outcome.

| file | module | what it holds |
|---|---|---|
| Wrappers.dfy | `Wrappers` | `Option` and `Result` |
| Manifests.dfy | `Manifests` | manifest entries, files, requests, resolutions |
| JsStrings.dfy | `JsStrings` | `lastIndexOf`, `substring(0, end)`, `join`, `split` |
| Resolver.dfy | `Resolver` | the three filters and `parseArguments` (function and loop) |
| ResolverProperties.dfy | `ResolverProperties` | first-match, what the resolver ignores, the null/empty toolset |
| Archives.dfy | `Archives` | base name, default root, `untarBoost` commands, cleanup files |
| CacheKeys.dfy | `CacheKeys` | `getKey` and the restore hit test |
| Install.dfy | `Install` | steps, events, the shared install pipeline |
| Installers.dfy | `Installers` | `main`, `installV1` (source and compiled), `installV2` |
| Scenarios.dfy | `Scenarios` | the repository's resolver test manifest, run through the model |

Some decisions about how the code is modelled:

- **The platform string.** The resolver compares a file's `platform` tag
  with `process.platform` exactly as it stands (src/shared.ts:67). Nothing
  translates the Node.js name "win32", so it never equals a "windows" tag.
- **The four-argument resolver only.** The three copies of
  `parseArguments` in src/shared.ts, dist/shared.js and src/index.ts take
  four arguments and filter on platform, toolset and platform version
  only. test/shared.test.ts calls a seven-argument version that also
  receives `link` and `arch`; that version is not part of this model, so
  the model has no `link` or `arch` filtering.
- **Helpers that are not part of this model.** src/installV1.ts:4-14
  imports `cleanup`, `setOutputVariables`, `untarBoost`, `Options`,
  `VersionsRecord` and `parseArguments` from './shared', and
  src/installV2.ts:3 imports `cleanup`, `untarBoost` and `parseArguments`
  from it. The src/shared.ts that is part of this model exports neither
  `cleanup`, `setOutputVariables`, `untarBoost`, `Options` nor
  `VersionsRecord`, so these installers were written against a newer
  src/shared.ts, which is not part of this model. src/installV1.ts calls
  `untarBoost` with two arguments (line 65) and src/installV2.ts with
  three, the third being `false` (line 28); src/installV2.ts sets its
  outputs with `core.setOutput` (lines 40-41). These calls are trace events
  whose arguments are exactly the call's arguments. The `DeleteFiles` event
  of the `cleanup` in dist/installV1.js is the one exception: its source is
  present, so it is spelled out.

## Model

| member | source | states |
|---|---|---|
| Resolver.Resolve | src/shared.ts:58-92 | a success is the url and file name of the first file that passes every filter, taken from the first entry whose version equals the request; a failure is "Could not find boost version <v>", and then no file of that first entry passes |
| Resolver.ParseArguments | src/shared.ts:58-92 | the source's nested loop returns exactly what `Resolve` specifies, including the `break` after the first matching entry and the error thrown when nothing was returned |
| Resolver.FirstEntry | src/shared.ts:59-61 | the index found is the first entry with the version property equal to the request; when none is found, no entry has it |
| Resolver.FirstAccepted | src/shared.ts:63-85 | the index found is the first file that passes the platform, toolset and platform-version filters; when none is found, no file passes |
| Resolver.FirstEntryUnique | src/shared.ts:59-61 | at most one entry is the first one of the requested version |
| Resolver.FirstAcceptedUnique | src/shared.ts:63-84 | at most one file of an entry is the first accepted one |
| Resolver.ResolveChooses | src/shared.ts:84 | naming the first matching entry and its first accepted file determines the result |
| ResolverProperties.ChosenFilePassesEveryFilter | src/shared.ts:67-82 | the returned file comes from an entry of the requested version, carries the runtime platform, carries the requested toolset when one is set, and carries the requested platform version when one is set |
| ResolverProperties.MissingVersionFails | src/shared.ts:91 | a manifest without the requested version fails with the message naming that version |
| ResolverProperties.ResolveIgnoresLaterEntries | src/shared.ts:87 | the entries after the first matching one can be replaced by anything without changing the result |
| ResolverProperties.LaterEntryCannotRescue | src/shared.ts:87-91 | when the first matching entry has no acceptable file, the resolver fails even if a later entry of that version has one |
| ResolverProperties.ResolveIgnoresFilesAfterChoice | src/shared.ts:84 | the first acceptable file wins: the files after it can be replaced by anything without changing the result |
| ResolverProperties.SameAcceptanceSameResult | src/shared.ts:58-92 | two requests for the same version that accept the same files resolve every manifest alike |
| ResolverProperties.NullAndEmptyToolsetAgree | src/shared.ts:73 | a `null` toolset and an empty toolset resolve every manifest alike |
| ResolverProperties.UnsetToolsetIgnoresTags | src/index.ts:136 | without a toolset request, removing every file's toolset tag leaves the result unchanged |
| ResolverProperties.FailureOnFirstEntry | src/shared.ts:85-91 | a first matching entry whose files are all rejected makes the resolver fail with the not-found message |
| JsStrings.LastIndexOf | src/index.ts:182 | -1 exactly when the character is absent; otherwise a position holding it with no later occurrence |
| JsStrings.Prefix | src/index.ts:182-183 | `substring(0, end)` is a prefix of the string, empty for an end of 0 or below, of length `end` within range |
| JsStrings.SplitJoin | src/cache.ts:9-17 | splitting the joined parts at the separator gives back the parts when none contains the separator |
| JsStrings.JoinInjective | src/cache.ts:9-17 | two arrays of separator-free parts that join to the same string are equal |
| Archives.PathJoinParts | src/index.ts:179 | `path.join(dir, name)` as modelled: the directory, one separator ('\\' on win32, '/' elsewhere), then the name |
| Archives.PathJoinInjective | src/index.ts:179 | within one directory, two names that join to the same path are equal |
| Archives.DefaultRoot | src/index.ts:11 | "D:\\boost" on win32, "/home/runner/boost" everywhere else |
| Archives.CutLastDot | src/index.ts:182 | the part before the last dot, which is followed by a dot-free remainder; empty when there is no dot |
| Archives.BaseDir | src/index.ts:182-183 | the base name is a prefix of the file name |
| Archives.CutLastDotOfSuffix | src/index.ts:182 | cutting at the last dot undoes appending "." and a dot-free suffix |
| Archives.BaseDirRoundTrip | src/index.ts:182-183 | the base name of `x + ".tar.gz"` is `x`, even when `x` contains dots |
| Archives.BaseDirWithoutDot | src/index.ts:182-183 | a file name without any dot has the empty base name |
| Archives.ArchiveIsDownloadedFile | src/index.ts:83-87 | for a file name ending in ".tar.gz", the archive the extraction reads is the downloaded file |
| Archives.TarOfArchive | src/index.ts:83-84 | cutting the last dot off `base.tar.gz` leaves `base.tar`, the file the first 7-Zip step produces and the second reads |
| Archives.UntarCommands | src/index.ts:80-89 | one `tar xzf base.tar.gz` elsewhere and two `7z` commands on win32; the first is `7z x base.tar.gz`, the second is `7z x` of the `.tar` left by the first, with `-aoa` (overwrite without asking) and `-o<base>` |
| Archives.CleanupFiles | dist/installV1.js:23-30 | the root joined with `base.tar.gz`, and on win32 also the root joined with `base.tar` |
| Archives.CleanupRemovesExtractionInputs | dist/installV1.js:23-30 | cleanup deletes, from the root directory and in the same order, exactly the archives the `untarBoost` of src/index.ts:80-89 reads; on win32 the second 7-Zip step writes into a directory named after the base. The extraction in dist/installV1.js:51 goes through a helper that is not part of this model, so this pairs the compiled cleanup with the `untarBoost` whose source is present |
| Archives.CleanupDeletesDownload | dist/installV1.js:25-28 | for a file name ending in ".tar.gz", the first file cleanup deletes is the downloaded file's path |
| CacheKeys.OrUnknown | src/cache.ts:13-16 | `value \|\| 'unknown'`: a missing or empty value gives exactly "unknown", a non-empty value is kept |
| CacheKeys.KeyFields | src/cache.ts:9-17 | the key has exactly seven fields |
| CacheKeys.KeyFieldsLayout | src/cache.ts:9-17 | the fields in order: "boost", 'v' and the version, the platform, the arch or "unknown" (never empty), the platform version, the toolset with `null` as "", and the link or "unknown" (never empty) |
| CacheKeys.GetKey | src/cache.ts:8-21 | the key starts with "boost-v", the version and "-" |
| CacheKeys.KeyRoundTrip | src/cache.ts:8-21 | splitting the key at '-' gives back the seven fields, in order, when none of them contains a '-' |
| CacheKeys.KeyDefaults | src/cache.ts:12-16 | a missing or empty arch, and a missing or empty link, each give the field "unknown", whatever the other fields hold |
| CacheKeys.KeyDefaultsInKey | src/cache.ts:8-21 | with '-'-free fields, those "unknown" defaults can be read back as the fourth and seventh parts of the key |
| CacheKeys.KeyIdentifiesOptions | src/cache.ts:8-21 | equal keys from '-'-free fields mean the same seven fields, and so the same version, platform and platform version; the options themselves are not identified (a missing arch and the arch "unknown" give the same field) |
| CacheKeys.RestoreHit | src/cache.ts:27-30 | a hit exactly when the cache service answered with a key |
| Install.Pipeline | src/installV1.ts:35-72 | the shared run: it fetches first, its steps are in pipeline order, and it never touches the cache; it succeeds exactly when the manifest arrives, the resolver finds a file, and download and extraction succeed; a success has the full trace and reports (root, base name); a failure has neither cleaned up nor set outputs; a fetch failure stops after one step with the fetch error; a resolver failure carries the not-found message and creates and downloads nothing; after resolution, a download failure carries the download's error and extracts nothing, and an extraction failure carries the extraction's error |
| Install.Transfer | src/installV1.ts:50-72 | after resolution the run succeeds exactly when download and extraction succeed; otherwise it stops before cleanup and outputs; a download failure is reported with the download's own error and stops before extraction, and an extraction failure is reported with the extraction's own error |
| Install.DeliveredFacts | src/installV1.ts:54-69 | the download goes to the root joined with the file name, and the extraction reads the base name in the root; the step sequence for each cleanup style, with cleanup right after extraction |
| Install.DeliveredShape | src/installV1.ts:35-72 | a complete run is in pipeline order, never touches the cache, and holds the cleanup events between extraction and outputs |
| Install.FailedPrefix | src/installV1.ts:55-65 | a run cut short at download or extraction has neither cleaned up nor set outputs, and one cut short at the download has not extracted |
| Installers.WithCache | src/installV1.ts:21-77 | with the cache enabled, a restore under the key comes first and a save under the same key comes last, but only after a success; the step kinds are the inner run's with those two added; the outcome is the inner run's |
| Installers.WithCacheEmbeds | src/installV1.ts:21-77 | the inner run's events appear unchanged and in order after the optional restore, every other event is a cache step, and a disabled cache leaves the trace exactly as it was |
| Installers.InstallV1Unfolds | src/installV1.ts:35-77 | on a cache miss or with the cache off, `installV1` is the legacy pipeline inside the cache wrapping |
| Installers.Main | src/index.ts:157-199 | an empty version fails with "the boost_version variable must be defined" before anything else; a non-empty version succeeds exactly when the fetch, the resolution, the download and the extraction succeed; a failure sets no outputs; a success fetched the legacy manifest, ran fetch, resolve, create, download, extract and output in that order, and reports the base name and the default root joined with it |
| Installers.MainExtractsDownload | src/index.ts:179-189 | the first archive `untarBoost` reads is the file `main` downloaded, when its name ends in ".tar.gz" |
| Installers.InstallV1ResolveFailure | src/installV1.ts:41-56 | on a cache miss, a resolver failure carries the not-found message and the run neither creates the root directory nor downloads |
| Installers.InstallV1Delivered | src/installV1.ts:50-69 | on a cache miss in which every modelled collaborator succeeds, the run succeeds, downloads the chosen file to the root joined with its name, extracts the base name in the root, and hands the root and the base name to `cleanup` |
| Installers.CachedDelivery | src/installV1.ts:35-77 | the download, extraction and cleanup events of a delivered run sit one place later behind a cache restore, and in place without one |
| Installers.EmbeddedAbsent | src/installV1.ts:21-77 | a non-cache step the inner run never takes is never taken by the wrapped run |
| Installers.InstallV1 | src/installV1.ts:19-78 | a cache hit reports (root/boost, requested version) after the restore alone; a miss or disabled cache succeeds exactly when the legacy pipeline does, reports (root joined with the base name, base name), and saves only when the cache is on; every cache call uses the same key; a failure sets no outputs and saves nothing |
| Installers.InstallV1Compiled | dist/installV1.js:31-63 | no cache steps; success exactly when the fetch, the resolution, the download and the extraction succeed; reports (root joined with base name, base name); the cleanup step deletes the archives of `cleanup` |
| Installers.CompiledCleanupDeletesDownload | dist/installV1.js:44-54 | the first file the compiled installer deletes is the path it downloaded to, when the name ends in ".tar.gz" |
| Installers.InstallV2 | src/installV2.ts:7-42 | the prebuilt manifest; success exactly when the fetch, the resolution, the download and the extraction succeed; reports (root/boost, base name); downloads into the root, extracts without renaming, then cleans up |
| Installers.InstallV2RootIgnoresManifest | src/installV2.ts:40 | `BOOST_ROOT` of two successful runs with the same root and platform is the same, whatever the manifests and requests |
| Scenarios.NoToolsetPicksPlainArchive | test/shared.test.ts:76-111 | with a `null` toolset the untagged archive listed first is chosen, although the MinGW archive also passes |
| Scenarios.MingwToolsetPicksMingwArchive | test/shared.test.ts:114-131 | requesting "mingw" chooses the MinGW archive, the file the test expects; the test reads its manifest from a file (lines 49-54), and the lemma uses the inline manifest of lines 76-108 instead |
| Scenarios.RawWin32NeverMatchesWindowsTag | src/shared.ts:67 | on the test manifest, the raw runtime name "win32" matches no "windows" file and the request fails |
| Scenarios.UnknownVersionFails | src/shared.ts:91 | a version missing from the test manifest fails with the message naming it |
| Scenarios.InstallV2Delivers | dist/installV2.js:16-45 | on any platform, when the fetch, the resolution, the download and the extraction succeed, `installV2` reports (root/boost, base name of the resolved file) |
| Scenarios.InstallV2Reports | dist/installV2.js:42-43 | on any platform, for an archive named `stem + ".tar.gz"`, `BOOST_VER` is `stem` and `BOOST_ROOT` is root/boost |
| Scenarios.InstallV2OnTestManifest | dist/installV2.js:42-43 | on the test manifest without a toolset, `installV2` reports (root/boost, "boost-1.74.0-windows-2019") |
| Scenarios.ExampleCacheKey | src/cache.ts:8-21 | the key for version 1.74.0, platform version 2019, no toolset, no arch and no link on win32 is "boost-v1.74.0-win32-unknown-2019--unknown" |

## Left out

- Fetching and parsing the manifest (`getVersions`) is left out because it is network I/O and JSON parsing. Its answer is a parameter, either a parsed manifest or an error message.
- Downloading (`downloadBoost`, with its progress reporting) is left out because it is network I/O. Its failure is a parameter.
- Running `tar` and `7z` is left out because it spawns subprocesses. Their failure is a parameter. Each non-zero exit code is not modelled as a distinct message.
- `createDirectory` and `deleteFiles` are left out because they are filesystem effects. Each appears as a trace event, and the existence checks they log about are not modelled.
- The calls into the Actions cache service are left out. A restore is represented by the key it answered with.
- `saveCache` in src/installV1.ts is not awaited, so its failure does not reach the caller. The model records the save event and no outcome for it.
- Logging (`core.debug`, `console.log`, `startGroup`/`endGroup`) is left out because it has no effect on results.
- `core.setFailed` and the top-level `try`/promise wiring of src/index.ts are left out. Every error is the `Failure` outcome of a run.
- `core.getInput` is left out. The inputs are parameters.
- `path.join` normalisation (`..`, repeated separators, dropping zero-length parts) is left out. `PathJoin` puts the platform's separator between the two parts. An empty part is not dropped: for a file name without a dot the base name is "" (`Archives.BaseDirWithoutDot`), and the model's `BOOST_ROOT` is then the root followed by a separator, where `path.join` (src/index.ts:184, src/installV1.ts:60) returns the root itself.
- Manifest objects missing `files`, `filename` or `download_url` are left out. The source would read `undefined` there, and the model's types make those fields present.
- The loose `==` of JavaScript (`==` at src/shared.ts:61, `!=` at lines 67, 73 and 79) is not modelled. The model assumes every manifest value it compares is a string; the manifest is untyped (`versions: object[]`, src/shared.ts:58), and a numeric `version: 1.74` would compare equal to the request "1.74" in the source but not in the model.
- The `parseArguments` that src/installV1.ts and src/installV2.ts import from './shared' is the newer one that is not part of this model (test/shared.test.ts:2-7 imports it from the same place with seven arguments). The model assumes it behaves like the four-argument copy in src/shared.ts and gives both installers `Resolver.Resolve`.
- The seven-argument `parseArguments` that test/shared.test.ts calls is not part of this model. It comes from a newer src/shared.ts. The test's inline manifest is modelled in Scenarios with the four-argument resolver.
- `cleanup` and `untarBoost`, which src/installV1.ts and src/installV2.ts import, and `setOutputVariables`, which src/installV1.ts imports, are not part of this model. src/installV1.ts calls `untarBoost` with two arguments and src/installV2.ts with three. The calls are events carrying their arguments, and `Options` keeps only the fields those installers read.
- dist/installV1.js:51 and dist/installV2.js:33,36 call `shared_1.untarBoost` and `shared_1.cleanup`. The dist/shared.js that is part of this model neither defines nor exports them (its export list is line 3), so, as the files stand, those calls would throw a `TypeError`. The model treats both compiled helpers as collaborators: extraction is a step whose failure is a parameter, and cleanup is a trace event.
- Creating the root directory and deleting files never fail in the model. `fs.mkdirSync` is not recursive (src/shared.ts:37), so a missing parent directory makes it throw before the download, and `fs.unlinkSync` can throw during cleanup. `World` has no failure for either, so "succeeds exactly when" in the rows above ranges over the fetch, the resolution, the download and the extraction only.
- The `link` and `arch` tags of manifest files are kept in the data model, but no resolver reads them.
- src/request-progress.d.ts (a type declaration) and test/test.cpp (a C++ program that includes Boost) are not part of this model. Neither holds logic of the action.
- Scenarios.InstallV2OnTestManifest: it uses the runtime platform "windows" so that the test manifest's tags can match. It says nothing about a real runner, where the platform is "win32".

=== FILE: Archives.dfy ===
/** Everything derived from the downloaded archive's file name: the base
    name (two `.`-suffixes cut off), the extraction commands of
    `untarBoost` in src/index.ts, the files the compiled legacy installer
    deletes afterwards, and the platform's default root directory. */
module Archives {
  import opened JsStrings

  /** `process.platform == "win32"`. */
  predicate IsWin32(platform: string) {
    platform == "win32"
  }

  /** The default install root of src/index.ts. */
  function DefaultRoot(platform: string): (root: string)
    ensures IsWin32(platform) ==> root == "D:\\boost"
    ensures !IsWin32(platform) ==> root == "/home/runner/boost"
  {
    if IsWin32(platform) then "D:\\boost" else "/home/runner/boost"
  }

  /** `path.join(dir, name)` without normalisation: the platform's
      separator between the two parts. */
  function PathJoin(win32: bool, dir: string, name: string): string {
    dir + [if win32 then '\\' else '/'] + name
  }

  /** A joined path is the directory, one platform separator, and the name. */
  lemma PathJoinParts(win32: bool, dir: string, name: string)
    ensures var path := PathJoin(win32, dir, name);
            && |path| == |dir| + 1 + |name|
            && path[..|dir|] == dir && path[|dir| + 1..] == name
            && path[|dir|] == (if win32 then '\\' else '/')
  {
  }

  /** Within one directory, the joined path determines the name. */
  lemma PathJoinInjective(win32: bool, dir: string, a: string, b: string)
    requires PathJoin(win32, dir, a) == PathJoin(win32, dir, b)
    ensures a == b
  {
    PathJoinParts(win32, dir, a);
    PathJoinParts(win32, dir, b);
  }

  /** `s.substring(0, s.lastIndexOf("."))`: everything before the last dot,
      or the empty string when there is no dot at all. */
  function CutLastDot(s: string): (r: string)
    ensures '.' !in s ==> r == ""
    ensures '.' in s ==> |r| < |s| && r == s[..|r|] && s[|r|] == '.' && '.' !in s[|r| + 1..]
  {
    Prefix(s, LastIndexOf(s, '.'))
  }

  /** The base name of an archive: the last two dot-suffixes removed. */
  function BaseDir(filename: string): (base: string)
    ensures |base| <= |filename| && base == filename[..|base|]
  {
    CutLastDot(CutLastDot(filename))
  }

  /** The archive name extraction is handed for a base name. */
  function ArchiveName(base: string): string {
    base + ".tar.gz"
  }

  /** Cutting at the last dot undoes appending a dot and a dot-free suffix. */
  lemma CutLastDotOfSuffix(head: string, suffix: string)
    requires '.' !in suffix
    ensures CutLastDot(head + "." + suffix) == head
  {
    var s := head + "." + suffix;
    var r := CutLastDot(s);
    assert s[|head|] == '.';
    assert '.' in s;
    assert |r| == |head|;
    assert s[..|head|] == head;
  }

  /** The base name round trip: the base name of `x + ".tar.gz"` is `x`,
      also when `x` itself contains dots. */
  lemma BaseDirRoundTrip(x: string)
    ensures BaseDir(x + ".tar.gz") == x
  {
    assert x + ".tar.gz" == (x + ".tar") + "." + "gz";
    CutLastDotOfSuffix(x + ".tar", "gz");
    assert x + ".tar" == x + "." + "tar";
    CutLastDotOfSuffix(x, "tar");
  }

  /** Stripping the gzip layer off the archive name leaves the tar name. */
  lemma TarOfArchive(base: string)
    ensures CutLastDot(ArchiveName(base)) == base + ".tar"
  {
    assert ArchiveName(base) == (base + ".tar") + "." + "gz";
    CutLastDotOfSuffix(base + ".tar", "gz");
  }

  /** A file name without any dot has the empty base name, because
      `lastIndexOf` answers -1 and `substring(0, -1)` is empty. */
  lemma BaseDirWithoutDot(filename: string)
    requires '.' !in filename
    ensures BaseDir(filename) == ""
  {
  }

  /** The archive handed to extraction is the downloaded file whenever that
      file's name ends in ".tar.gz". */
  lemma ArchiveIsDownloadedFile(filename: string)
    requires EndsWith(filename, ".tar.gz")
    ensures ArchiveName(BaseDir(filename)) == filename
  {
    var x := filename[..|filename| - 7];
    assert filename == x + ".tar.gz";
    BaseDirRoundTrip(x);
  }

  // ---------------------------------------------------------------------
  // Extraction and cleanup.
  // ---------------------------------------------------------------------

  /** A subprocess invocation: the program and its argument list. */
  datatype Command = Command(program: string, args: seq<string>)

  /** The archive a command reads: its second argument. */
  function Input(c: Command): string {
    if |c.args| >= 2 then c.args[1] else ""
  }

  /** The commands `untarBoost` of src/index.ts runs in the root directory:
      on win32 two 7-Zip steps (unpack the gzip layer, then the tar layer
      into a directory named after the base), elsewhere one `tar xzf`. */
  function UntarCommands(win32: bool, base: string): (cmds: seq<Command>)
    ensures |cmds| == (if win32 then 2 else 1)
    ensures Input(cmds[0]) == ArchiveName(base)
    ensures cmds[0].program == (if win32 then "7z" else "tar")
    ensures |cmds[0].args| == 2 && cmds[0].args[0] == (if win32 then "x" else "xzf")
    ensures win32 ==> cmds[1].program == "7z" && Input(cmds[1]) == CutLastDot(ArchiveName(base))
                      && |cmds[1].args| == 4 && cmds[1].args[3] == "-o" + base
    ensures win32 ==> cmds[1].args[0] == "x" && cmds[1].args[2] == "-aoa"
  {
    TarOfArchive(base);
    if win32 then
      [Command("7z", ["x", base + ".tar.gz"]),
       Command("7z", ["x", base + ".tar", "-aoa", "-o" + base])]
    else
      [Command("tar", ["xzf", base + ".tar.gz"])]
  }

  /** The files `cleanup` of dist/installV1.js deletes. */
  function CleanupFiles(win32: bool, dir: string, base: string): (paths: seq<string>)
    ensures |paths| == (if win32 then 2 else 1)
    ensures paths[0] == PathJoin(win32, dir, ArchiveName(base))
    ensures win32 ==> paths[1] == PathJoin(win32, dir, CutLastDot(ArchiveName(base)))
  {
    TarOfArchive(base);
    if win32 then [PathJoin(win32, dir, base + ".tar.gz"), PathJoin(win32, dir, base + ".tar")]
    else [PathJoin(win32, dir, base + ".tar.gz")]
  }

  /** Extraction and cleanup agree: the first command reads the archive
      named after the base, the win32 path writes into a directory named
      after the base, and cleanup deletes, in the root directory, exactly
      the archives the extraction commands read, in the same order. */
  lemma CleanupRemovesExtractionInputs(win32: bool, dir: string, base: string)
    ensures Input(UntarCommands(win32, base)[0]) == ArchiveName(base)
    ensures win32 ==> UntarCommands(win32, base)[1].args[3] == "-o" + base
    ensures |CleanupFiles(win32, dir, base)| == |UntarCommands(win32, base)|
    ensures forall k :: 0 <= k < |CleanupFiles(win32, dir, base)| ==>
              CleanupFiles(win32, dir, base)[k] == PathJoin(win32, dir, Input(UntarCommands(win32, base)[k]))
  {
  }

  /** The first file cleanup deletes is the downloaded file whenever the
      file name ends in ".tar.gz". */
  lemma CleanupDeletesDownload(win32: bool, dir: string, filename: string)
    requires EndsWith(filename, ".tar.gz")
    ensures CleanupFiles(win32, dir, BaseDir(filename))[0] == PathJoin(win32, dir, filename)
  {
    ArchiveIsDownloadedFile(filename);
  }
}

=== FILE: CacheKeys.dfy ===
/** The cache key of src/cache.ts and the restore hit test. The calls
    into the cache service itself are collaborators: a restore is
    represented by the key it answered with, if any. */
module CacheKeys {
  import opened Wrappers
  import opened JsStrings

  /** The options the key is built from. `arch` and `link` may be missing;
      `toolset` may be `null`, which `join` renders as the empty string. */
  datatype CacheOptions = CacheOptions(
    boostVersion: string,
    toolset: Option<string>,
    platformVersion: string,
    arch: Option<string>,
    link: Option<string>
  )

  /** `value || 'unknown'`: a missing or empty value falls back to "unknown". */
  function OrUnknown(value: Option<string>): (r: string)
    ensures |r| > 0
    ensures value.Some? && |value.value| > 0 ==> r == value.value
    ensures value.None? || |value.value| == 0 ==> r == "unknown"
  {
    if value.None? || |value.value| == 0 then "unknown" else value.value
  }

  /** The seven key fields in order. */
  function KeyFields(opts: CacheOptions, platform: string): (fields: seq<string>)
    ensures |fields| == 7
  {
    ["boost",
     "v" + opts.boostVersion,
     platform,
     OrUnknown(opts.arch),
     opts.platformVersion,
     opts.toolset.GetOr(""),
     OrUnknown(opts.link)]
  }

  /** The layout of the fields: the literal "boost", the version behind a
      'v', the platform, the arch or "unknown", the platform version, the
      toolset with `null` as the empty string, and the link or "unknown". */
  lemma KeyFieldsLayout(opts: CacheOptions, platform: string)
    ensures var fields := KeyFields(opts, platform);
            && fields[0] == "boost"
            && |fields[1]| == |opts.boostVersion| + 1 && fields[1][0] == 'v' && fields[1][1..] == opts.boostVersion
            && fields[2] == platform && fields[4] == opts.platformVersion
            && fields[3] == OrUnknown(opts.arch) && fields[6] == OrUnknown(opts.link)
            && |fields[3]| > 0 && |fields[6]| > 0
            && (opts.toolset.None? ==> fields[5] == "")
            && (opts.toolset.Some? ==> fields[5] == opts.toolset.value)
  {
  }

  /** `getKey`: the seven fields joined by '-'. */
  function GetKey(opts: CacheOptions, platform: string): (key: string)
    ensures |key| > 8 + |opts.boostVersion|
    ensures key[..8 + |opts.boostVersion|] == "boost-v" + opts.boostVersion + "-"
  {
    var fields := KeyFields(opts, platform);
    JoinFirst(fields, '-');
    Join(fields, '-')
  }

  /** Joining starts with the first part followed by the separator. */
  lemma JoinFirst(parts: seq<string>, sep: char)
    requires |parts| >= 2
    ensures Join(parts, sep) == parts[0] + [sep] + Join(parts[1..], sep)
  {
  }

  /** No field contains the separator. */
  predicate DashFree(opts: CacheOptions, platform: string) {
    forall k :: 0 <= k < 7 ==> '-' !in KeyFields(opts, platform)[k]
  }

  /** The key can be taken apart again: splitting it at '-' gives back the
      seven fields whenever none of them contains a '-'. */
  lemma KeyRoundTrip(opts: CacheOptions, platform: string)
    requires DashFree(opts, platform)
    ensures Split(GetKey(opts, platform), '-') == KeyFields(opts, platform)
  {
    SplitJoin(KeyFields(opts, platform), '-');
  }

  /** A missing or empty arch and a missing or empty link both contribute
      the field "unknown", whatever the other fields hold. */
  lemma KeyDefaults(opts: CacheOptions, platform: string)
    ensures (opts.arch.None? || opts.arch == Some("")) ==> KeyFields(opts, platform)[3] == "unknown"
    ensures (opts.link.None? || opts.link == Some("")) ==> KeyFields(opts, platform)[6] == "unknown"
  {
  }

  /** With '-'-free fields the defaults can be read back out of the key. */
  lemma KeyDefaultsInKey(opts: CacheOptions, platform: string)
    requires DashFree(opts, platform)
    ensures |Split(GetKey(opts, platform), '-')| == 7
    ensures (opts.arch.None? || opts.arch == Some("")) ==> Split(GetKey(opts, platform), '-')[3] == "unknown"
    ensures (opts.link.None? || opts.link == Some("")) ==> Split(GetKey(opts, platform), '-')[6] == "unknown"
  {
    KeyRoundTrip(opts, platform);
    KeyDefaults(opts, platform);
  }

  /** While the fields are free of '-', the key identifies the seven
      fields, and with them the version, the platform and the platform
      version. It does not identify the options themselves: a missing arch
      and the arch "unknown" give the same field, and so do a `null` and an
      empty toolset. */
  lemma KeyIdentifiesOptions(a: CacheOptions, pa: string, b: CacheOptions, pb: string)
    requires DashFree(a, pa) && DashFree(b, pb)
    requires GetKey(a, pa) == GetKey(b, pb)
    ensures KeyFields(a, pa) == KeyFields(b, pb)
    ensures a.boostVersion == b.boostVersion && pa == pb && a.platformVersion == b.platformVersion
  {
    KeyRoundTrip(a, pa);
    KeyRoundTrip(b, pb);
    assert KeyFields(a, pa)[1] == KeyFields(b, pb)[1];
    assert a.boostVersion == ("v" + a.boostVersion)[1..];
    assert b.boostVersion == ("v" + b.boostVersion)[1..];
  }

  /** `restoreCache`: a hit exactly when the cache service answered with a
      key rather than `undefined`. */
  function RestoreHit(restoredKey: Option<string>): (hit: bool)
    ensures hit <==> restoredKey.Some?
  {
    restoredKey != None
  }
}

=== FILE: Install.dfy ===
/** The install pipelines as pure functions from what the collaborators
    answered (manifest fetch, download, extraction, cache restore) to the
    trace of steps taken and the outcome. Every variant in the repository
    is the same linear pipeline, fetch → resolve → create directory →
    download → extract → (clean up, in some variants) → set outputs,
    instantiated by a `Plan`;
    src/installV1.ts wraps it in a cache probe and a cache save. */
module Install {
  import opened Wrappers
  import opened Manifests
  import Resolver
  import opened Archives
  import CacheKeys

  const LegacyManifest := "https://raw.githubusercontent.com/actions/boost-versions/main/versions-manifest.json"
  const PrebuiltManifest := "https://raw.githubusercontent.com/MarkusJx/prebuilt-boost/main/versions-manifest.json"
  const MissingVersion := "the boost_version variable must be defined"

  // ---------------------------------------------------------------------
  // Traces.
  // ---------------------------------------------------------------------

  /** The kinds of step, in the only order any pipeline takes them. */
  datatype Step = Restore | Fetch | Resolve | MakeDir | Download | Extract | Clean | Output | Save

  function Rank(s: Step): nat {
    match s
    case Restore => 0
    case Fetch => 1
    case Resolve => 2
    case MakeDir => 3
    case Download => 4
    case Extract => 5
    case Clean => 6
    case Output => 7
    case Save => 8
  }

  /** One observable step with the arguments it was called with.
      `rename` is `None` where the source omits the argument.
      `CleanupArchives` is the shared `cleanup(dir, base)` helper;
      `DeleteFiles` is the explicit list deleted by dist/installV1.js. */
  datatype Event =
    | RestoreCache(key: string)
    | FetchManifest(address: string)
    | ResolveVersion(version: string)
    | CreateDirectory(dir: string)
    | DownloadArchive(url: string, target: string)
    | ExtractArchive(base: string, dir: string, rename: Option<bool>)
    | CleanupArchives(dir: string, base: string)
    | DeleteFiles(paths: seq<string>)
    | SetOutputs(boostRoot: string, boostVer: string)
    | SaveCache(key: string)
  {
    function Step(): Step {
      match this
      case RestoreCache(_) => Restore
      case FetchManifest(_) => Fetch
      case ResolveVersion(_) => Resolve
      case CreateDirectory(_) => MakeDir
      case DownloadArchive(_, _) => Download
      case ExtractArchive(_, _, _) => Extract
      case CleanupArchives(_, _) => Clean
      case DeleteFiles(_) => Clean
      case SetOutputs(_, _) => Output
      case SaveCache(_) => Save
    }
  }

  function Steps(trace: seq<Event>): seq<Step> {
    seq(|trace|, k requires 0 <= k < |trace| => trace[k].Step())
  }

  /** Every step comes strictly after every step of a lower rank: no step
      repeats and none goes back. */
  predicate Ranked(trace: seq<Event>) {
    forall i, j :: 0 <= i < j < |trace| ==> Rank(trace[i].Step()) < Rank(trace[j].Step())
  }

  predicate Absent(trace: seq<Event>, s: Step) {
    forall k :: 0 <= k < |trace| ==> trace[k].Step() != s
  }

  /** The two outputs, `BOOST_ROOT` and `BOOST_VER`. */
  datatype Outputs = Outputs(boostRoot: string, boostVer: string)

  datatype Run = Run(trace: seq<Event>, outcome: Result<Outputs, string>)

  /** What the collaborators answer: the runtime platform, the parsed
      manifest or the fetch error, the download and extraction errors if
      any, and the key the cache service restored, if any. */
  datatype World = World(
    platform: string,
    fetched: Result<Manifest, string>,
    downloadError: Option<string>,
    extractError: Option<string>,
    restoredKey: Option<string>
  )

  // ---------------------------------------------------------------------
  // The shared pipeline.
  // ---------------------------------------------------------------------

  datatype CleanupStyle = NoCleanup | SharedCleanup | DeleteArchives

  /** `BOOST_ROOT` is either the root joined with the archive's base name
      or the root joined with the fixed directory "boost". */
  datatype RootLayout = NamedAfterArchive | FixedBoostDir

  datatype Plan = Plan(address: string, rename: Option<bool>, cleanup: CleanupStyle, layout: RootLayout)

  function CleanupEvents(style: CleanupStyle, win32: bool, root: string, base: string): seq<Event> {
    match style
    case NoCleanup => []
    case SharedCleanup => [CleanupArchives(root, base)]
    case DeleteArchives => [DeleteFiles(CleanupFiles(win32, root, base))]
  }

  function BoostRoot(layout: RootLayout, win32: bool, root: string, base: string): string {
    match layout
    case NamedAfterArchive => PathJoin(win32, root, base)
    case FixedBoostDir => PathJoin(win32, root, "boost")
  }

  /** The request the pipeline hands to the resolver. */
  function RequestOf(version: string, toolset: Option<string>, platformVersion: string, world: World): Request {
    Request(version, toolset, platformVersion, world.platform)
  }

  /** Every collaborator succeeds and the resolver finds a file. */
  predicate Delivers(req: Request, world: World) {
    && world.fetched.Success?
    && Resolver.Resolve(world.fetched.value, req).Success?
    && world.downloadError.None?
    && world.extractError.None?
  }

  /** The file the resolver chose. */
  function Chosen(req: Request, world: World): Resolved
    requires world.fetched.Success? && Resolver.Resolve(world.fetched.value, req).Success?
  {
    Resolver.Resolve(world.fetched.value, req).value
  }

  /** The full trace of a run in which every step succeeds. */
  function Delivered(plan: Plan, version: string, win32: bool, root: string, file: Resolved): seq<Event> {
    var base := BaseDir(file.filename);
    var outputs := Outputs(BoostRoot(plan.layout, win32, root, base), base);
    [FetchManifest(plan.address), ResolveVersion(version), CreateDirectory(root),
     DownloadArchive(file.url, PathJoin(win32, root, file.filename)), ExtractArchive(base, root, plan.rename)]
    + CleanupEvents(plan.cleanup, win32, root, base)
    + [SetOutputs(outputs.boostRoot, outputs.boostVer)]
  }

  /** The delivered trace, spelled out per cleanup style. */
  lemma DeliveredLiteral(plan: Plan, version: string, win32: bool, root: string, file: Resolved)
    ensures var base := BaseDir(file.filename);
            var outputs := SetOutputs(BoostRoot(plan.layout, win32, root, base), base);
            var prefix := [FetchManifest(plan.address), ResolveVersion(version), CreateDirectory(root),
                           DownloadArchive(file.url, PathJoin(win32, root, file.filename)),
                           ExtractArchive(base, root, plan.rename)];
            Delivered(plan, version, win32, root, file)
            == match plan.cleanup
               case NoCleanup => prefix + [outputs]
               case SharedCleanup => prefix + [CleanupArchives(root, base), outputs]
               case DeleteArchives => prefix + [DeleteFiles(CleanupFiles(win32, root, base)), outputs]
  {
  }

  lemma DeliveredCleanupSlice(plan: Plan, version: string, win32: bool, root: string, file: Resolved)
    ensures var trace := Delivered(plan, version, win32, root, file);
            var cleaning := CleanupEvents(plan.cleanup, win32, root, BaseDir(file.filename));
            |trace| == 6 + |cleaning| && trace[5..|trace| - 1] == cleaning
  {
    DeliveredLiteral(plan, version, win32, root, file);
  }

  lemma DeliveredSteps(plan: Plan, version: string, win32: bool, root: string, file: Resolved)
    ensures var trace := Delivered(plan, version, win32, root, file);
            var cleaning := CleanupEvents(plan.cleanup, win32, root, BaseDir(file.filename));
            Steps(trace) == [Fetch, Resolve, MakeDir, Download, Extract] + Steps(cleaning) + [Output]
  {
    DeliveredLiteral(plan, version, win32, root, file);
    var trace := Delivered(plan, version, win32, root, file);
    var cleaning := CleanupEvents(plan.cleanup, win32, root, BaseDir(file.filename));
    if plan.cleanup.NoCleanup? {
      assert |trace| == 6;
      assert Steps(cleaning) == [];
    } else {
      assert |trace| == 7 && trace[5].Step() == Clean;
      assert Steps(cleaning) == [Clean];
    }
  }

  lemma DeliveredShape(plan: Plan, version: string, win32: bool, root: string, file: Resolved)
    ensures var trace := Delivered(plan, version, win32, root, file);
            var cleaning := CleanupEvents(plan.cleanup, win32, root, BaseDir(file.filename));
            && |trace| == 6 + |cleaning|
            && Ranked(trace)
            && Absent(trace, Restore) && Absent(trace, Save)
            && trace[5..|trace| - 1] == cleaning
            && Steps(trace) == [Fetch, Resolve, MakeDir, Download, Extract] + Steps(cleaning) + [Output]
  {
    DeliveredCleanupSlice(plan, version, win32, root, file);
    DeliveredSteps(plan, version, win32, root, file);
    var trace := Delivered(plan, version, win32, root, file);
    var cleaning := CleanupEvents(plan.cleanup, win32, root, BaseDir(file.filename));
    if plan.cleanup.NoCleanup? {
      assert Steps(cleaning) == [];
      assert [Fetch, Resolve, MakeDir, Download, Extract] + Steps(cleaning) + [Output]
          == [Fetch, Resolve, MakeDir, Download, Extract, Output];
    } else {
      assert Steps(cleaning) == [Clean];
    }
    RankedBySteps(trace);
  }

  /** A trace whose steps are one of the two shapes every pipeline takes is
      ranked and touches no cache. */
  lemma RankedBySteps(trace: seq<Event>)
    requires Steps(trace) == [Fetch, Resolve, MakeDir, Download, Extract, Output]
          || Steps(trace) == [Fetch, Resolve, MakeDir, Download, Extract, Clean, Output]
    ensures Ranked(trace)
    ensures Absent(trace, Restore) && Absent(trace, Save)
  {
    forall i, j | 0 <= i < j < |trace| ensures Rank(trace[i].Step()) < Rank(trace[j].Step()) {
      assert trace[i].Step() == Steps(trace)[i] && trace[j].Step() == Steps(trace)[j];
    }
    forall k | 0 <= k < |trace| ensures trace[k].Step() != Restore && trace[k].Step() != Save {
      assert trace[k].Step() == Steps(trace)[k];
    }
  }

  /** The first five steps of the delivered trace, the longest a failing
      run gets through. */
  lemma DeliveredHead(plan: Plan, version: string, win32: bool, root: string, file: Resolved)
    ensures Delivered(plan, version, win32, root, file)[..5]
            == [FetchManifest(plan.address), ResolveVersion(version), CreateDirectory(root),
                DownloadArchive(file.url, PathJoin(win32, root, file.filename)),
                ExtractArchive(BaseDir(file.filename), root, plan.rename)]
  {
  }

  /** A run cut short after `n` steps is ranked, and has neither cleaned up
      nor set outputs; one cut short at the download has not extracted. */
  lemma FailedPrefix(plan: Plan, version: string, win32: bool, root: string, file: Resolved, n: nat)
    requires n <= 5
    ensures var trace := Delivered(plan, version, win32, root, file)[..n];
            && Ranked(trace)
            && Absent(trace, Restore) && Absent(trace, Clean) && Absent(trace, Output) && Absent(trace, Save)
            && (n <= 4 ==> Absent(trace, Extract))
  {
    DeliveredShape(plan, version, win32, root, file);
    DeliveredHead(plan, version, win32, root, file);
    var full := Delivered(plan, version, win32, root, file);
    assert full[..n] == full[..5][..n];
  }

  function Pipeline(plan: Plan, req: Request, root: string, world: World): (r: Run)
    requires req.platform == world.platform
    ensures Ranked(r.trace)
    ensures |r.trace| >= 1 && r.trace[0] == FetchManifest(plan.address)
    ensures Absent(r.trace, Restore) && Absent(r.trace, Save)
    ensures r.outcome.Success? <==> Delivers(req, world)
    ensures r.outcome.Success? ==>
              var file := Chosen(req, world);
              var base := BaseDir(file.filename);
              && r.trace == Delivered(plan, req.version, IsWin32(world.platform), root, file)
              && r.outcome.value == Outputs(BoostRoot(plan.layout, IsWin32(world.platform), root, base), base)
    ensures r.outcome.Failure? ==> Absent(r.trace, Clean) && Absent(r.trace, Output)
    ensures world.fetched.Failure? ==> r.outcome == Failure(world.fetched.error) && |r.trace| == 1
    ensures world.fetched.Success? && Resolver.Resolve(world.fetched.value, req).Failure? ==>
              && r.outcome == Failure(Resolver.NotFound(req.version))
              && Absent(r.trace, MakeDir) && Absent(r.trace, Download)
    ensures world.fetched.Success? && Resolver.Resolve(world.fetched.value, req).Success? ==>
              && (world.downloadError.Some? ==>
                    r.outcome == Failure(world.downloadError.value) && Absent(r.trace, Extract))
              && (world.downloadError.None? && world.extractError.Some? ==>
                    r.outcome == Failure(world.extractError.value))
  {
    match world.fetched
    case Failure(e) => Run([FetchManifest(plan.address)], Failure(e))
    case Success(manifest) =>
      match Resolver.Resolve(manifest, req)
      case Failure(e) => Run([FetchManifest(plan.address), ResolveVersion(req.version)], Failure(e))
      case Success(file) => Transfer(plan, req.version, IsWin32(world.platform), root, file, world)
  }

  /** The part of a run after the resolver chose `file`: download, extract,
      clean up and report, stopping at the first collaborator that fails. */
  function Transfer(plan: Plan, version: string, win32: bool, root: string, file: Resolved, world: World): (r: Run)
    ensures Ranked(r.trace)
    ensures |r.trace| >= 1 && r.trace[0] == FetchManifest(plan.address)
    ensures Absent(r.trace, Restore) && Absent(r.trace, Save)
    ensures r.outcome.Success? <==> world.downloadError.None? && world.extractError.None?
    ensures r.outcome.Success? ==>
              var base := BaseDir(file.filename);
              && r.trace == Delivered(plan, version, win32, root, file)
              && r.outcome.value == Outputs(BoostRoot(plan.layout, win32, root, base), base)
    ensures r.outcome.Failure? ==> Absent(r.trace, Clean) && Absent(r.trace, Output)
    ensures world.downloadError.Some? ==>
              r.outcome == Failure(world.downloadError.value) && Absent(r.trace, Extract)
    ensures world.downloadError.None? && world.extractError.Some? ==>
              r.outcome == Failure(world.extractError.value)
  {
    var full := Delivered(plan, version, win32, root, file);
    var base := BaseDir(file.filename);
    if world.downloadError.Some? then
      FailedPrefix(plan, version, win32, root, file, 4);
      DeliveredHead(plan, version, win32, root, file);
      Run(full[..4], Failure(world.downloadError.value))
    else if world.extractError.Some? then
      FailedPrefix(plan, version, win32, root, file, 5);
      DeliveredHead(plan, version, win32, root, file);
      Run(full[..5], Failure(world.extractError.value))
    else
      DeliveredShape(plan, version, win32, root, file);
      Run(full, Success(Outputs(BoostRoot(plan.layout, win32, root, base), base)))
  }

  /** The delivered trace step by step, for each cleanup style. */
  lemma DeliveredFacts(plan: Plan, version: string, win32: bool, root: string, file: Resolved)
    ensures var trace := Delivered(plan, version, win32, root, file);
            var base := BaseDir(file.filename);
            var cleaning := CleanupEvents(plan.cleanup, win32, root, base);
            && trace[3] == DownloadArchive(file.url, PathJoin(win32, root, file.filename))
            && trace[4] == ExtractArchive(base, root, plan.rename)
            && (plan.cleanup.NoCleanup? ==> Steps(trace) == [Fetch, Resolve, MakeDir, Download, Extract, Output])
            && (!plan.cleanup.NoCleanup? ==>
                  && Steps(trace) == [Fetch, Resolve, MakeDir, Download, Extract, Clean, Output]
                  && trace[5] == cleaning[0])
  {
    DeliveredShape(plan, version, win32, root, file);
    DeliveredHead(plan, version, win32, root, file);
    var trace := Delivered(plan, version, win32, root, file);
    var cleaning := CleanupEvents(plan.cleanup, win32, root, BaseDir(file.filename));
    assert trace[3] == trace[..5][3] && trace[4] == trace[..5][4];
    if plan.cleanup.NoCleanup? {
      assert Steps(cleaning) == [];
      assert [Fetch, Resolve, MakeDir, Download, Extract] + Steps(cleaning) + [Output]
          == [Fetch, Resolve, MakeDir, Download, Extract, Output];
    } else {
      assert Steps(cleaning) == [Clean];
      assert trace[5] == trace[5..|trace| - 1][0];
    }
  }
}

=== FILE: Installers.dfy ===
/** The concrete install entry points of the repository, each an
    instance of the shared pipeline:
    - `main` of src/index.ts: checks the version, no cleanup, root named
      after the archive, default root per platform;
    - `installV1` of src/installV1.ts: a cache probe and save around the
      legacy pipeline;
    - `installV1` of dist/installV1.js: the legacy pipeline without a
      cache, deleting the archives itself;
    - `installV2` of src/installV2.ts and dist/installV2.js: the prebuilt
      manifest, no rename, fixed "boost" root. */
module Installers {
  import opened Wrappers
  import opened Manifests
  import Resolver
  import opened Archives
  import CacheKeys
  import opened Install

  const IndexPlan := Plan(LegacyManifest, None, NoCleanup, NamedAfterArchive)
  const LegacyPlan := Plan(LegacyManifest, None, SharedCleanup, NamedAfterArchive)
  const CompiledLegacyPlan := Plan(LegacyManifest, None, DeleteArchives, NamedAfterArchive)
  const DefaultPlan := Plan(PrebuiltManifest, Some(false), SharedCleanup, FixedBoostDir)

  /** A pipeline run inside the cache probe of src/installV1.ts: with the
      cache enabled, a restore before it and, when it succeeded, a save
      after it; the outcome is the run's own. */
  function WithCache(cache: bool, key: string, run: Run): (r: Run)
    requires Ranked(run.trace) && Absent(run.trace, Restore) && Absent(run.trace, Save)
    ensures r.outcome == run.outcome
    ensures Ranked(r.trace)
    ensures Steps(r.trace) == (if cache then [Restore] else []) + Steps(run.trace)
                              + (if cache && run.outcome.Success? then [Save] else [])
    ensures forall k :: 0 <= k < |r.trace| && (r.trace[k].RestoreCache? || r.trace[k].SaveCache?) ==> r.trace[k].key == key
    ensures !cache ==> Absent(r.trace, Restore) && Absent(r.trace, Save)
    ensures cache ==> |r.trace| >= 1 && r.trace[0] == RestoreCache(key)
    ensures run.outcome.Failure? ==> Absent(r.trace, Save)
    ensures Absent(run.trace, Output) ==> Absent(r.trace, Output)
  {
    var probe := if cache then [RestoreCache(key)] else [];
    var save := if cache && run.outcome.Success? then [SaveCache(key)] else [];
    var trace := probe + run.trace + save;
    CacheWrapped(probe, run.trace, save, key);
    assert Steps(probe) == (if cache then [Restore] else []);
    assert Steps(save) == (if cache && run.outcome.Success? then [Save] else []);
    Run(trace, run.outcome)
  }

  /** The cache wrapping keeps the inner run's events, unchanged and in
      order, right after the optional restore; every other event is a cache
      step; a disabled cache leaves the run as it is. */
  lemma WithCacheEmbeds(cache: bool, key: string, run: Run)
    requires Ranked(run.trace) && Absent(run.trace, Restore) && Absent(run.trace, Save)
    ensures var r := WithCache(cache, key, run);
            var k := if cache then 1 else 0;
            && |r.trace| >= k + |run.trace|
            && r.trace[k..k + |run.trace|] == run.trace
            && (forall i :: 0 <= i < |r.trace| && !(k <= i < k + |run.trace|) ==>
                  r.trace[i].RestoreCache? || r.trace[i].SaveCache?)
            && (!cache ==> r.trace == run.trace)
  {
    var r := WithCache(cache, key, run);
    var probe := if cache then [RestoreCache(key)] else [];
    var save := if cache && run.outcome.Success? then [SaveCache(key)] else [];
    assert r.trace == probe + run.trace + save;
    if !cache {
      assert probe + run.trace + save == run.trace;
    }
  }

  lemma CacheWrapped(probe: seq<Event>, t: seq<Event>, save: seq<Event>, key: string)
    requires probe == [] || probe == [RestoreCache(key)]
    requires save == [] || save == [SaveCache(key)]
    requires Ranked(t) && Absent(t, Restore) && Absent(t, Save)
    ensures Ranked(probe + t + save)
    ensures Steps(probe + t + save) == Steps(probe) + Steps(t) + Steps(save)
  {
    var w := probe + t + save;
    forall i, j | 0 <= i < j < |w| ensures Rank(w[i].Step()) < Rank(w[j].Step()) {
      if i < |probe| {
        assert w[i] == RestoreCache(key);
        if j < |probe| + |t| {
          assert w[j] == t[j - |probe|];
        } else {
          assert w[j] == SaveCache(key);
        }
      } else if j >= |probe| + |t| {
        assert w[j] == SaveCache(key);
        assert w[i] == t[i - |probe|];
      } else {
        assert w[i] == t[i - |probe|] && w[j] == t[j - |probe|];
      }
    }
  }

  // ---------------------------------------------------------------------
  // src/index.ts
  // ---------------------------------------------------------------------

  /** `main`: an empty version fails before anything else happens;
      otherwise the legacy pipeline runs without cleanup and sets
      `BOOST_ROOT` to the default root joined with the base name. */
  function Main(boostVersion: string, toolset: string, platformVersion: string, world: World): (r: Run)
    ensures |boostVersion| == 0 ==> r.trace == [] && r.outcome == Failure(MissingVersion)
    ensures |boostVersion| > 0 ==> |r.trace| >= 1 && r.trace[0] == FetchManifest(LegacyManifest)
    ensures Ranked(r.trace)
    ensures |boostVersion| > 0 ==>
              (r.outcome.Success? <==> Delivers(RequestOf(boostVersion, Some(toolset), platformVersion, world), world))
    ensures r.outcome.Failure? ==> Absent(r.trace, Clean) && Absent(r.trace, Output)
    ensures r.outcome.Success? ==>
              var req := RequestOf(boostVersion, Some(toolset), platformVersion, world);
              && Delivers(req, world)
              && Steps(r.trace) == [Fetch, Resolve, MakeDir, Download, Extract, Output]
              && r.outcome.value.boostVer == BaseDir(Chosen(req, world).filename)
              && r.outcome.value.boostRoot
                 == PathJoin(IsWin32(world.platform), DefaultRoot(world.platform), r.outcome.value.boostVer)
  {
    if |boostVersion| <= 0 then Run([], Failure(MissingVersion))
    else
      var req := RequestOf(boostVersion, Some(toolset), platformVersion, world);
      var r := Pipeline(IndexPlan, req, DefaultRoot(world.platform), world);
      if r.outcome.Success? then
        DeliveredFacts(IndexPlan, req.version, IsWin32(world.platform), DefaultRoot(world.platform), Chosen(req, world));
        r
      else r
  }

  // ---------------------------------------------------------------------
  // src/installV1.ts
  // ---------------------------------------------------------------------

  /** The options of the legacy installer that matter to it. */
  datatype Options = Options(
    boostVersion: string,
    toolset: Option<string>,
    platformVersion: string,
    rootDir: string,
    cache: bool,
    arch: Option<string>,
    link: Option<string>
  )

  function CacheKey(opts: Options, platform: string): string {
    CacheKeys.GetKey(CacheKeys.CacheOptions(opts.boostVersion, opts.toolset, opts.platformVersion, opts.arch, opts.link), platform)
  }

  predicate CacheHit(opts: Options, world: World) {
    opts.cache && CacheKeys.RestoreHit(world.restoredKey)
  }

  /** `installV1` with its cache: a hit answers `(root/boost, version)` at
      once; a miss, or a disabled cache, runs the legacy pipeline, which
      names `BOOST_ROOT` after the archive; a successful run with the cache
      enabled ends by saving under the same key it restored with. */
  function InstallV1(opts: Options, world: World): (r: Run)
    ensures Ranked(r.trace)
    ensures opts.cache ==> |r.trace| >= 1 && r.trace[0] == RestoreCache(CacheKey(opts, world.platform))
    ensures !opts.cache ==> Absent(r.trace, Restore) && Absent(r.trace, Save)
    ensures forall k :: 0 <= k < |r.trace| && (r.trace[k].RestoreCache? || r.trace[k].SaveCache?) ==>
              r.trace[k].key == CacheKey(opts, world.platform)
    ensures CacheHit(opts, world) ==>
              && r.outcome == Success(Outputs(PathJoin(IsWin32(world.platform), opts.rootDir, "boost"), opts.boostVersion))
              && Steps(r.trace) == [Restore, Output]
    ensures !CacheHit(opts, world) ==>
              var req := RequestOf(opts.boostVersion, opts.toolset, opts.platformVersion, world);
              && (r.outcome.Success? <==> Delivers(req, world))
              && (r.outcome.Success? ==>
                    && r.outcome.value.boostVer == BaseDir(Chosen(req, world).filename)
                    && r.outcome.value.boostRoot == PathJoin(IsWin32(world.platform), opts.rootDir, r.outcome.value.boostVer)
                    && Steps(r.trace) == (if opts.cache then [Restore] else [])
                                         + [Fetch, Resolve, MakeDir, Download, Extract, Clean, Output]
                                         + (if opts.cache then [Save] else []))
    ensures r.outcome.Failure? ==> Absent(r.trace, Output) && Absent(r.trace, Save)
  {
    var win32 := IsWin32(world.platform);
    var key := CacheKey(opts, world.platform);
    if CacheHit(opts, world) then
      var outputs := Outputs(PathJoin(win32, opts.rootDir, "boost"), opts.boostVersion);
      var trace := [RestoreCache(key), SetOutputs(outputs.boostRoot, outputs.boostVer)];
      assert Steps(trace) == [Restore, Output];
      Run(trace, Success(outputs))
    else
      var req := RequestOf(opts.boostVersion, opts.toolset, opts.platformVersion, world);
      var run := Pipeline(LegacyPlan, req, opts.rootDir, world);
      if run.outcome.Success? then
        DeliveredFacts(LegacyPlan, req.version, win32, opts.rootDir, Chosen(req, world));
        WithCache(opts.cache, key, run)
      else
        WithCache(opts.cache, key, run)
  }

  /** On a cache miss, or with the cache off, `installV1` is the legacy
      pipeline inside the cache wrapping. */
  lemma InstallV1Unfolds(opts: Options, world: World)
    requires !CacheHit(opts, world)
    ensures var req := RequestOf(opts.boostVersion, opts.toolset, opts.platformVersion, world);
            InstallV1(opts, world)
            == WithCache(opts.cache, CacheKey(opts, world.platform), Pipeline(LegacyPlan, req, opts.rootDir, world))
  {
  }

  /** A step the inner run never takes is not taken by the wrapped run
      either, unless it is a cache step. */
  lemma EmbeddedAbsent(outer: seq<Event>, inner: seq<Event>, k: nat, s: Step)
    requires |outer| >= k + |inner| && outer[k..k + |inner|] == inner
    requires forall i :: 0 <= i < |outer| && !(k <= i < k + |inner|) ==>
               outer[i].RestoreCache? || outer[i].SaveCache?
    requires s != Restore && s != Save
    requires Absent(inner, s)
    ensures Absent(outer, s)
  {
    forall i | 0 <= i < |outer| ensures outer[i].Step() != s {
      if k <= i < k + |inner| {
        assert outer[i] == inner[i - k];
      }
    }
  }

  /** The `j`-th event of an embedded run sits `k` places later outside. */
  lemma EmbeddedAt(outer: seq<Event>, inner: seq<Event>, k: nat, j: nat)
    requires |outer| >= k + |inner| && outer[k..k + |inner|] == inner
    requires j < |inner|
    ensures outer[k + j] == inner[j]
  {
    assert outer[k..k + |inner|][j] == outer[k + j];
  }

  /** In `installV1`, a resolver failure creates and downloads nothing and
      carries the not-found message. */
  lemma InstallV1ResolveFailure(opts: Options, world: World)
    requires !CacheHit(opts, world)
    requires world.fetched.Success?
    requires Resolver.Resolve(world.fetched.value,
                              RequestOf(opts.boostVersion, opts.toolset, opts.platformVersion, world)).Failure?
    ensures InstallV1(opts, world).outcome == Failure(Resolver.NotFound(opts.boostVersion))
    ensures Absent(InstallV1(opts, world).trace, MakeDir) && Absent(InstallV1(opts, world).trace, Download)
  {
    var req := RequestOf(opts.boostVersion, opts.toolset, opts.platformVersion, world);
    var run := Pipeline(LegacyPlan, req, opts.rootDir, world);
    InstallV1Unfolds(opts, world);
    WithCacheEmbeds(opts.cache, CacheKey(opts, world.platform), run);
    var r := InstallV1(opts, world);
    var k := if opts.cache then 1 else 0;
    EmbeddedAbsent(r.trace, run.trace, k, MakeDir);
    EmbeddedAbsent(r.trace, run.trace, k, Download);
  }

  /** A delivered run keeps its download, extraction and cleanup events
      inside the cache wrapping, `k` places later. */
  lemma CachedDelivery(cache: bool, key: string, run: Run, plan: Plan, version: string, win32: bool, root: string,
                       file: Resolved)
    requires !plan.cleanup.NoCleanup?
    requires run.trace == Delivered(plan, version, win32, root, file)
    requires Ranked(run.trace) && Absent(run.trace, Restore) && Absent(run.trace, Save)
    ensures var r := WithCache(cache, key, run);
            var k := if cache then 1 else 0;
            && |run.trace| == 7 && |r.trace| > k + 5
            && r.trace[k + 3] == run.trace[3] && r.trace[k + 4] == run.trace[4] && r.trace[k + 5] == run.trace[5]
  {
    DeliveredFacts(plan, version, win32, root, file);
    assert |run.trace| == |Steps(run.trace)| == 7;
    WithCacheEmbeds(cache, key, run);
    var r := WithCache(cache, key, run);
    var k := if cache then 1 else 0;
    EmbeddedAt(r.trace, run.trace, k, 3);
    EmbeddedAt(r.trace, run.trace, k, 4);
    EmbeddedAt(r.trace, run.trace, k, 5);
  }

  /** In a successful `installV1` without a cache hit, with `k` restore
      steps before the pipeline: the chosen file is downloaded into the root
      directory, extracted there, and `cleanup` gets the root and the base
      name. */
  lemma InstallV1Delivered(opts: Options, world: World)
    requires !CacheHit(opts, world)
    requires Delivers(RequestOf(opts.boostVersion, opts.toolset, opts.platformVersion, world), world)
    ensures InstallV1(opts, world).outcome.Success?
    ensures var r := InstallV1(opts, world);
            var req := RequestOf(opts.boostVersion, opts.toolset, opts.platformVersion, world);
            var k := if opts.cache then 1 else 0;
            var win32 := IsWin32(world.platform);
            var file := Chosen(req, world);
            var base := BaseDir(file.filename);
            && |r.trace| > k + 5
            && r.trace[k + 3] == DownloadArchive(file.url, PathJoin(win32, opts.rootDir, file.filename))
            && r.trace[k + 4] == ExtractArchive(base, opts.rootDir, None)
            && r.trace[k + 5] == CleanupArchives(opts.rootDir, base)
  {
    var req := RequestOf(opts.boostVersion, opts.toolset, opts.platformVersion, world);
    var win32 := IsWin32(world.platform);
    var file := Chosen(req, world);
    var run := Pipeline(LegacyPlan, req, opts.rootDir, world);
    InstallV1Unfolds(opts, world);
    CachedDelivery(opts.cache, CacheKey(opts, world.platform), run, LegacyPlan, req.version, win32, opts.rootDir, file);
    DeliveredFacts(LegacyPlan, req.version, win32, opts.rootDir, file);
  }

  // ---------------------------------------------------------------------
  // dist/installV1.js
  // ---------------------------------------------------------------------

  /** The compiled `installV1`: no cache step at all; after extraction it
      deletes the archive (and on win32 the intermediate tar) itself. */
  function InstallV1Compiled(boostVersion: string, toolset: Option<string>, platformVersion: string,
                             rootDir: string, world: World): (r: Run)
    ensures Ranked(r.trace)
    ensures Absent(r.trace, Restore) && Absent(r.trace, Save)
    ensures |r.trace| >= 1 && r.trace[0] == FetchManifest(LegacyManifest)
    ensures r.outcome.Success? <==> Delivers(RequestOf(boostVersion, toolset, platformVersion, world), world)
    ensures r.outcome.Success? ==>
              var win32 := IsWin32(world.platform);
              var base := r.outcome.value.boostVer;
              && base == BaseDir(Chosen(RequestOf(boostVersion, toolset, platformVersion, world), world).filename)
              && r.outcome.value.boostRoot == PathJoin(win32, rootDir, base)
              && Steps(r.trace) == [Fetch, Resolve, MakeDir, Download, Extract, Clean, Output]
              && r.trace[5] == DeleteFiles(CleanupFiles(win32, rootDir, base))
    ensures r.outcome.Failure? ==> Absent(r.trace, Clean) && Absent(r.trace, Output)
  {
    var req := RequestOf(boostVersion, toolset, platformVersion, world);
    var r := Pipeline(CompiledLegacyPlan, req, rootDir, world);
    if r.outcome.Success? then
      DeliveredFacts(CompiledLegacyPlan, req.version, IsWin32(world.platform), rootDir, Chosen(req, world));
      r
    else r
  }

  // ---------------------------------------------------------------------
  // src/installV2.ts and dist/installV2.js
  // ---------------------------------------------------------------------

  /** `installV2`: the prebuilt manifest, extraction without renaming,
      the shared cleanup after extraction, and `BOOST_ROOT` fixed to the
      root joined with "boost". */
  function InstallV2(boostVersion: string, toolset: Option<string>, platformVersion: string,
                     rootDir: string, world: World): (r: Run)
    ensures Ranked(r.trace)
    ensures Absent(r.trace, Restore) && Absent(r.trace, Save)
    ensures |r.trace| >= 1 && r.trace[0] == FetchManifest(PrebuiltManifest)
    ensures r.outcome.Success? <==> Delivers(RequestOf(boostVersion, toolset, platformVersion, world), world)
    ensures r.outcome.Success? ==>
              var win32 := IsWin32(world.platform);
              var file := Chosen(RequestOf(boostVersion, toolset, platformVersion, world), world);
              var base := BaseDir(file.filename);
              && r.outcome.value == Outputs(PathJoin(win32, rootDir, "boost"), base)
              && Steps(r.trace) == [Fetch, Resolve, MakeDir, Download, Extract, Clean, Output]
              && r.trace[3] == DownloadArchive(file.url, PathJoin(win32, rootDir, file.filename))
              && r.trace[4] == ExtractArchive(base, rootDir, Some(false))
              && r.trace[5] == CleanupArchives(rootDir, base)
    ensures r.outcome.Failure? ==> Absent(r.trace, Clean) && Absent(r.trace, Output)
  {
    var req := RequestOf(boostVersion, toolset, platformVersion, world);
    var r := Pipeline(DefaultPlan, req, rootDir, world);
    if r.outcome.Success? then
      DeliveredFacts(DefaultPlan, req.version, IsWin32(world.platform), rootDir, Chosen(req, world));
      r
    else r
  }

  // ---------------------------------------------------------------------
  // Relations between runs.
  // ---------------------------------------------------------------------

  /** `BOOST_ROOT` of `installV2` does not depend on the manifest or the
      chosen file: any two delivered runs with the same root directory and
      platform report the same root. */
  lemma InstallV2RootIgnoresManifest(v: string, t: Option<string>, pv: string, rootDir: string,
                                     w1: World, v2: string, t2: Option<string>, pv2: string, w2: World)
    requires w1.platform == w2.platform
    requires InstallV2(v, t, pv, rootDir, w1).outcome.Success?
    requires InstallV2(v2, t2, pv2, rootDir, w2).outcome.Success?
    ensures InstallV2(v, t, pv, rootDir, w1).outcome.value.boostRoot
         == InstallV2(v2, t2, pv2, rootDir, w2).outcome.value.boostRoot
  {
  }

  /** In the compiled legacy installer, the first file deleted is the file
      that was downloaded whenever its name ends in ".tar.gz". */
  lemma CompiledCleanupDeletesDownload(boostVersion: string, toolset: Option<string>, platformVersion: string,
                                       rootDir: string, world: World)
    requires InstallV1Compiled(boostVersion, toolset, platformVersion, rootDir, world).outcome.Success?
    requires JsStrings.EndsWith(Chosen(RequestOf(boostVersion, toolset, platformVersion, world), world).filename, ".tar.gz")
    ensures var r := InstallV1Compiled(boostVersion, toolset, platformVersion, rootDir, world);
            r.trace[5].DeleteFiles? && r.trace[3].DownloadArchive?
            && r.trace[5].paths[0] == r.trace[3].target
  {
    var req := RequestOf(boostVersion, toolset, platformVersion, world);
    var file := Chosen(req, world);
    DeliveredFacts(CompiledLegacyPlan, boostVersion, IsWin32(world.platform), rootDir, file);
    CleanupDeletesDownload(IsWin32(world.platform), rootDir, file.filename);
  }

  /** In `main`, the archive the extraction commands of `untarBoost` read
      first is the downloaded file whenever its name ends in ".tar.gz". */
  lemma MainExtractsDownload(boostVersion: string, toolset: string, platformVersion: string, world: World)
    requires Main(boostVersion, toolset, platformVersion, world).outcome.Success?
    requires JsStrings.EndsWith(Chosen(RequestOf(boostVersion, Some(toolset), platformVersion, world), world).filename, ".tar.gz")
    ensures var r := Main(boostVersion, toolset, platformVersion, world);
            var win32 := IsWin32(world.platform);
            && r.trace[3].DownloadArchive? && r.trace[4].ExtractArchive?
            && r.trace[3].target == PathJoin(win32, DefaultRoot(world.platform), Input(UntarCommands(win32, r.trace[4].base)[0]))
  {
    var req := RequestOf(boostVersion, Some(toolset), platformVersion, world);
    var file := Chosen(req, world);
    DeliveredFacts(IndexPlan, boostVersion, IsWin32(world.platform), DefaultRoot(world.platform), file);
    ArchiveIsDownloadedFile(file.filename);
  }
}

=== FILE: JsStrings.dfy ===
/** The JavaScript string operations the core relies on, with their exact
    edge-case behaviour: `lastIndexOf` answers -1 when the character is
    absent, `substring(0, end)` clamps a negative end to 0, and
    `Array.prototype.join` / `String.prototype.split` on a one-character
    separator. */
module JsStrings {

  /** `s.lastIndexOf(c)`: the position of the last `c` in `s`, or -1. */
  function LastIndexOf(s: string, c: char): (r: int)
    ensures -1 <= r < |s|
    ensures r == -1 <==> c !in s
    ensures r >= 0 ==> s[r] == c && forall k :: r < k < |s| ==> s[k] != c
  {
    if |s| == 0 then -1
    else if s[|s| - 1] == c then |s| - 1
    else
      assert s == s[..|s| - 1] + [s[|s| - 1]];
      LastIndexOf(s[..|s| - 1], c)
  }

  /** `s.substring(0, end)`: an end below 0 counts as 0 and an end past the
      string counts as its length. */
  function Prefix(s: string, end: int): (r: string)
    ensures |r| <= |s| && r == s[..|r|]
    ensures end <= 0 ==> r == ""
    ensures 0 <= end <= |s| ==> |r| == end
  {
    if end <= 0 then "" else if end >= |s| then s else s[..end]
  }

  /** `s.endsWith(suffix)`. */
  predicate EndsWith(s: string, suffix: string) {
    |suffix| <= |s| && s[|s| - |suffix|..] == suffix
  }

  /** `parts.join(sep)` for a non-empty array of strings. */
  function Join(parts: seq<string>, sep: char): (r: string)
    requires |parts| >= 1
    decreases |parts|
  {
    if |parts| == 1 then parts[0] else parts[0] + [sep] + Join(parts[1..], sep)
  }

  /** `s.split(sep)`: the maximal separator-free pieces, including empty
      ones at either end or between two adjacent separators. */
  function Split(s: string, sep: char): (parts: seq<string>)
    ensures |parts| >= 1
    ensures forall k :: 0 <= k < |parts| ==> sep !in parts[k]
    decreases |s|
  {
    if |s| == 0 then [""]
    else if s[0] == sep then [""] + Split(s[1..], sep)
    else
      var rest := Split(s[1..], sep);
      [[s[0]] + rest[0]] + rest[1..]
  }

  /** Splitting a separator-free head followed by anything extends the first
      piece of the tail by that head. */
  lemma {:induction false} SplitSeparatorFreeHead(head: string, tail: string, sep: char)
    requires sep !in head
    ensures Split(head + tail, sep) == [head + Split(tail, sep)[0]] + Split(tail, sep)[1..]
    decreases |head|
  {
    if |head| == 0 {
      var parts := Split(tail, sep);
      assert head + tail == tail;
      assert head + parts[0] == parts[0];
      assert parts == [parts[0]] + parts[1..];
    } else {
      var s := head + tail;
      assert s[0] == head[0] && s[1..] == head[1..] + tail;
      SplitSeparatorFreeHead(head[1..], tail, sep);
      assert [head[0]] + (head[1..] + Split(tail, sep)[0]) == head + Split(tail, sep)[0];
    }
  }

  /** Splitting undoes joining whenever no part contains the separator. */
  lemma {:induction false} SplitJoin(parts: seq<string>, sep: char)
    requires |parts| >= 1
    requires forall k :: 0 <= k < |parts| ==> sep !in parts[k]
    ensures Split(Join(parts, sep), sep) == parts
    decreases |parts|
  {
    if |parts| == 1 {
      SplitSeparatorFreeHead(parts[0], "", sep);
      assert parts[0] + "" == parts[0];
    } else {
      var tail := [sep] + Join(parts[1..], sep);
      assert Join(parts, sep) == parts[0] + tail;
      SplitSeparatorFreeHead(parts[0], tail, sep);
      SplitJoin(parts[1..], sep);
      assert tail[1..] == Join(parts[1..], sep);
      assert Split(tail, sep) == [""] + parts[1..];
      assert parts[0] + "" == parts[0];
      assert parts == [parts[0]] + parts[1..];
    }
  }

  /** Joining is injective on separator-free parts: two arrays that join to
      the same string are the same array. */
  lemma JoinInjective(a: seq<string>, b: seq<string>, sep: char)
    requires |a| >= 1 && |b| >= 1
    requires forall k :: 0 <= k < |a| ==> sep !in a[k]
    requires forall k :: 0 <= k < |b| ==> sep !in b[k]
    requires Join(a, sep) == Join(b, sep)
    ensures a == b
  {
    SplitJoin(a, sep);
    SplitJoin(b, sep);
  }
}

=== FILE: Manifests.dfy ===
/** The data model of the version manifest, as it arrives already parsed
    from JSON, and of a resolution request and its answer. */
module Manifests {
  import opened Wrappers

  /** One downloadable archive. `filename` and `download_url` are always
      present; every other tag may be missing from the JSON object. The
      `link` and `arch` tags appear in manifests but no resolver in this
      model consults them. */
  datatype File = File(
    filename: string,
    downloadUrl: string,
    platform: Option<string>,
    toolset: Option<string>,
    platformVersion: Option<string>,
    link: Option<string>,
    arch: Option<string>
  )

  /** One manifest entry; `version` is optional because the resolver tests
      it with `hasOwnProperty` before comparing. */
  datatype VersionEntry = VersionEntry(version: Option<string>, files: seq<File>)

  type Manifest = seq<VersionEntry>

  /** The arguments of `parseArguments`, plus the runtime platform
      (`process.platform`), which the source reads from a global. A `None`
      toolset is the JavaScript `null`. */
  datatype Request = Request(
    version: string,
    toolset: Option<string>,
    platformVersion: string,
    platform: string
  )

  /** The `{ url, filename }` object the resolver returns. */
  datatype Resolved = Resolved(url: string, filename: string)

  /** The answer built from a chosen file. */
  function Selection(f: File): Resolved {
    Resolved(f.downloadUrl, f.filename)
  }
}

=== FILE: Resolver.dfy ===
/** The manifest resolver `parseArguments`: pick, from the first manifest
    entry whose version equals the request, the first file that passes the
    platform, toolset and platform-version filters, or fail with
    "Could not find boost version <v>". The three copies of the function
    in the repository share this model; the copy in src/index.ts types its
    toolset as a non-null string, which is a request whose toolset is
    always `Some`. */
module Resolver {
  import opened Wrappers
  import opened Manifests

  // ---------------------------------------------------------------------
  // The three filters, one predicate per rule.
  // ---------------------------------------------------------------------

  /** Platform is mandatory: an untagged file never matches. */
  predicate PlatformMatches(f: File, platform: string) {
    f.platform == Some(platform)
  }

  /** A `null` or empty requested toolset ignores the tag; otherwise the
      file must carry exactly that toolset. */
  predicate ToolsetMatches(f: File, toolset: Option<string>) {
    toolset.None? || |toolset.value| == 0 || f.toolset == toolset
  }

  /** An empty requested platform version ignores the tag; otherwise the
      file must carry exactly that platform version. */
  predicate PlatformVersionMatches(f: File, platformVersion: string) {
    |platformVersion| == 0 || f.platformVersion == Some(platformVersion)
  }

  predicate Accepts(f: File, req: Request) {
    && PlatformMatches(f, req.platform)
    && ToolsetMatches(f, req.toolset)
    && PlatformVersionMatches(f, req.platformVersion)
  }

  // ---------------------------------------------------------------------
  // Which entry and which file are looked at.
  // ---------------------------------------------------------------------

  /** `i` is the first entry that carries exactly `version`. */
  predicate IsFirstEntry(m: Manifest, version: string, i: int) {
    && 0 <= i < |m|
    && m[i].version == Some(version)
    && forall k :: 0 <= k < i ==> m[k].version != Some(version)
  }

  /** `j` is the first file of `files` that passes every filter. */
  predicate IsFirstAccepted(files: seq<File>, req: Request, j: int) {
    && 0 <= j < |files|
    && Accepts(files[j], req)
    && forall k :: 0 <= k < j ==> !Accepts(files[k], req)
  }

  /** The message of the error the resolver throws. */
  function NotFound(version: string): string {
    "Could not find boost version " + version
  }

  function FirstEntry(m: Manifest, version: string): (r: Option<nat>)
    ensures r.Some? ==> IsFirstEntry(m, version, r.value)
    ensures r.None? ==> forall k :: 0 <= k < |m| ==> m[k].version != Some(version)
  {
    if |m| == 0 then None
    else if m[0].version == Some(version) then Some(0)
    else
      match FirstEntry(m[1..], version)
      case None => None
      case Some(i) => Some(i + 1)
  }

  function FirstAccepted(files: seq<File>, req: Request): (r: Option<nat>)
    ensures r.Some? ==> IsFirstAccepted(files, req, r.value)
    ensures r.None? ==> forall k :: 0 <= k < |files| ==> !Accepts(files[k], req)
  {
    if |files| == 0 then None
    else if Accepts(files[0], req) then Some(0)
    else
      match FirstAccepted(files[1..], req)
      case None => None
      case Some(j) => Some(j + 1)
  }

  /** The resolver. It succeeds exactly with the first accepted file of the
      first entry of the requested version; otherwise it fails with the
      not-found message, also when a later entry of the same version holds
      an acceptable file. */
  function Resolve(m: Manifest, req: Request): (r: Result<Resolved, string>)
    ensures r.Success? ==>
      exists i, j :: IsFirstEntry(m, req.version, i) && IsFirstAccepted(m[i].files, req, j)
                     && r.value == Selection(m[i].files[j])
    ensures r.Failure? ==> r.error == NotFound(req.version)
    ensures r.Failure? ==>
      forall i :: IsFirstEntry(m, req.version, i) ==>
        forall j :: 0 <= j < |m[i].files| ==> !Accepts(m[i].files[j], req)
  {
    match FirstEntry(m, req.version)
    case None => Failure(NotFound(req.version))
    case Some(i) =>
      match FirstAccepted(m[i].files, req)
      case None => Failure(NotFound(req.version))
      case Some(j) => Success(Selection(m[i].files[j]))
  }

  /** The first matching entry and the first accepted file in it are unique. */
  lemma FirstEntryUnique(m: Manifest, version: string, i: int, i': int)
    requires IsFirstEntry(m, version, i) && IsFirstEntry(m, version, i')
    ensures i == i'
  {
  }

  lemma FirstAcceptedUnique(files: seq<File>, req: Request, j: int, j': int)
    requires IsFirstAccepted(files, req, j) && IsFirstAccepted(files, req, j')
    ensures j == j'
  {
  }

  /** `Resolve` pinned down by one chosen entry and file. */
  lemma ResolveChooses(m: Manifest, req: Request, i: int, j: int)
    requires IsFirstEntry(m, req.version, i) && IsFirstAccepted(m[i].files, req, j)
    ensures Resolve(m, req) == Success(Selection(m[i].files[j]))
  {
    var r := Resolve(m, req);
    if r.Success? {
      var i', j' :| IsFirstEntry(m, req.version, i') && IsFirstAccepted(m[i'].files, req, j')
                    && r.value == Selection(m[i'].files[j']);
      FirstEntryUnique(m, req.version, i, i');
      FirstAcceptedUnique(m[i].files, req, j, j');
    }
  }

  /** The loop of the source, statement for statement: scan entries until
      one has the requested version, scan its files with `continue` on each
      failed filter, return the first survivor, otherwise `break` and throw.
      It computes exactly `Resolve`. */
  method ParseArguments(versions: Manifest, boostVersion: string, toolset: Option<string>,
                        platformVersion: string, platform: string)
    returns (r: Result<Resolved, string>)
    ensures r == Resolve(versions, Request(boostVersion, toolset, platformVersion, platform))
  {
    ghost var req := Request(boostVersion, toolset, platformVersion, platform);
    var i := 0;
    while i < |versions|
      invariant 0 <= i <= |versions|
      invariant forall k :: 0 <= k < i ==> versions[k].version != Some(boostVersion)
    {
      var cur := versions[i];
      if cur.version.Some? && cur.version.value == boostVersion {
        var files := cur.files;
        var j := 0;
        while j < |files|
          invariant 0 <= j <= |files|
          invariant forall k :: 0 <= k < j ==> !Accepts(files[k], req)
        {
          var file := files[j];
          if file.platform.None? || file.platform.value != platform {
            j := j + 1;
            continue;
          }
          if toolset.Some? && |toolset.value| > 0
             && (file.toolset.None? || file.toolset.value != toolset.value) {
            j := j + 1;
            continue;
          }
          if |platformVersion| > 0
             && (file.platformVersion.None? || file.platformVersion.value != platformVersion) {
            j := j + 1;
            continue;
          }
          assert IsFirstEntry(versions, boostVersion, i);
          assert IsFirstAccepted(files, req, j);
          ResolveChooses(versions, req, i, j);
          return Success(Resolved(file.downloadUrl, file.filename));
        }
        assert IsFirstEntry(versions, boostVersion, i);
        break;
      }
      i := i + 1;
    }
    return Failure("Could not find boost version " + boostVersion);
  }
}

=== FILE: ResolverProperties.dfy ===
/** Properties of the resolver that relate several calls or several
    manifests: what it never looks at, and what it guarantees about the
    file it returns. */
module ResolverProperties {
  import opened Wrappers
  import opened Manifests
  import opened Resolver

  /** Any returned file is tagged with the current platform, carries the
      requested toolset when one is requested, and carries the requested
      platform version when one is requested. */
  lemma ChosenFilePassesEveryFilter(m: Manifest, req: Request)
    requires Resolve(m, req).Success?
    ensures exists i, j ::
              && 0 <= i < |m| && 0 <= j < |m[i].files|
              && m[i].version == Some(req.version)
              && Resolve(m, req).value == Selection(m[i].files[j])
              && m[i].files[j].platform == Some(req.platform)
              && (req.toolset.Some? && |req.toolset.value| > 0 ==> m[i].files[j].toolset == req.toolset)
              && (|req.platformVersion| > 0 ==> m[i].files[j].platformVersion == Some(req.platformVersion))
  {
  }

  /** A manifest without the requested version makes the resolver throw an
      error naming that version. */
  lemma MissingVersionFails(m: Manifest, req: Request)
    requires forall k :: 0 <= k < |m| ==> m[k].version != Some(req.version)
    ensures Resolve(m, req) == Failure("Could not find boost version " + req.version)
  {
  }

  /** Only the first entry of the requested version is examined: whatever
      follows it can be replaced without changing the answer. */
  lemma {:induction false} ResolveIgnoresLaterEntries(m: Manifest, req: Request, i: int, rest: Manifest)
    requires IsFirstEntry(m, req.version, i)
    ensures Resolve(m[..i + 1] + rest, req) == Resolve(m, req)
  {
    var m' := m[..i + 1] + rest;
    assert m'[i] == m[i];
    assert IsFirstEntry(m', req.version, i) by {
      forall k | 0 <= k < i ensures m'[k].version != Some(req.version) {
        assert m'[k] == m[k];
      }
    }
    match FirstAccepted(m[i].files, req)
    case None =>
    case Some(j) =>
      ResolveChooses(m, req, i, j);
      ResolveChooses(m', req, i, j);
  }

  /** When no file of the first entry of the requested version passes the
      filters, the resolver throws even though a later entry of the same
      version holds a file that would pass. */
  lemma LaterEntryCannotRescue(m: Manifest, req: Request, i: int, k: int, j: int)
    requires IsFirstEntry(m, req.version, i)
    requires forall f :: 0 <= f < |m[i].files| ==> !Accepts(m[i].files[f], req)
    requires i < k < |m| && m[k].version == Some(req.version)
    requires 0 <= j < |m[k].files| && Accepts(m[k].files[j], req)
    ensures Resolve(m, req) == Failure(NotFound(req.version))
  {
  }

  /** First match wins: once file `j` is chosen, the files after it can be
      replaced by anything without changing the answer. */
  lemma {:induction false} ResolveIgnoresFilesAfterChoice(m: Manifest, req: Request, i: int, j: int, tail: seq<File>)
    requires IsFirstEntry(m, req.version, i)
    requires IsFirstAccepted(m[i].files, req, j)
    ensures Resolve(m[i := m[i].(files := m[i].files[..j + 1] + tail)], req) == Resolve(m, req)
  {
    var files' := m[i].files[..j + 1] + tail;
    var m' := m[i := m[i].(files := files')];
    assert IsFirstEntry(m', req.version, i) by {
      forall k | 0 <= k < i ensures m'[k].version != Some(req.version) {
        assert m'[k] == m[k];
      }
    }
    assert IsFirstAccepted(files', req, j) by {
      forall k | 0 <= k <= j ensures files'[k] == m[i].files[k] { }
    }
    ResolveChooses(m, req, i, j);
    ResolveChooses(m', req, i, j);
  }

  /** Two requests for the same version that accept exactly the same files
      resolve every manifest alike. */
  lemma {:induction false} SameAcceptanceSameResult(m: Manifest, a: Request, b: Request)
    requires a.version == b.version
    requires forall f: File :: Accepts(f, a) == Accepts(f, b)
    ensures Resolve(m, a) == Resolve(m, b)
  {
    match FirstEntry(m, a.version)
    case None =>
    case Some(i) =>
      match FirstAccepted(m[i].files, a)
      case None =>
        assert forall j :: 0 <= j < |m[i].files| ==> !Accepts(m[i].files[j], b);
      case Some(j) =>
        assert IsFirstAccepted(m[i].files, b, j);
        ResolveChooses(m, a, i, j);
        ResolveChooses(m, b, i, j);
  }

  /** A `null` toolset (src/shared.ts, dist/shared.js) and an empty toolset
      string (the non-null string of src/index.ts) both leave the toolset
      tag unchecked, so they resolve alike. */
  lemma NullAndEmptyToolsetAgree(m: Manifest, req: Request)
    ensures Resolve(m, req.(toolset := None)) == Resolve(m, req.(toolset := Some("")))
  {
    SameAcceptanceSameResult(m, req.(toolset := None), req.(toolset := Some("")));
  }

  /** With no toolset requested, toolset tags play no part: stripping every
      file's toolset tag leaves the answer unchanged. */
  lemma {:induction false} UnsetToolsetIgnoresTags(m: Manifest, req: Request)
    requires req.toolset.None? || req.toolset == Some("")
    ensures Resolve(StripToolsets(m), req) == Resolve(m, req)
  {
    var m' := StripToolsets(m);
    match FirstEntry(m, req.version)
    case None =>
      assert forall k :: 0 <= k < |m'| ==> m'[k].version == m[k].version;
    case Some(i) =>
      assert IsFirstEntry(m', req.version, i) by {
        forall k | 0 <= k <= i ensures m'[k].version == m[k].version { }
      }
      assert forall f :: 0 <= f < |m[i].files| ==>
        Accepts(m'[i].files[f], req) == Accepts(m[i].files[f], req);
      match FirstAccepted(m[i].files, req)
      case None =>
        FailureOnFirstEntry(m', req, i);
      case Some(j) =>
        assert IsFirstAccepted(m'[i].files, req, j);
        ResolveChooses(m, req, i, j);
        ResolveChooses(m', req, i, j);
        assert Selection(m'[i].files[j]) == Selection(m[i].files[j]);
  }

  /** The resolver fails when the first entry of the version accepts nothing. */
  lemma FailureOnFirstEntry(m: Manifest, req: Request, i: int)
    requires IsFirstEntry(m, req.version, i)
    requires forall f :: 0 <= f < |m[i].files| ==> !Accepts(m[i].files[f], req)
    ensures Resolve(m, req) == Failure(NotFound(req.version))
  {
  }

  /** The manifest with every file's toolset tag removed. */
  function StripToolsets(m: Manifest): (r: Manifest)
    ensures |r| == |m|
    ensures forall k :: 0 <= k < |m| ==> r[k].version == m[k].version && |r[k].files| == |m[k].files|
    ensures forall k, f :: 0 <= k < |m| && 0 <= f < |m[k].files| ==>
      r[k].files[f] == m[k].files[f].(toolset := None)
  {
    seq(|m|, k requires 0 <= k < |m| =>
      m[k].(files := seq(|m[k].files|, f requires 0 <= f < |m[k].files| => m[k].files[f].(toolset := None))))
  }
}

=== FILE: Scenarios.dfy ===
/** Concrete runs on the inline manifest of the repository's resolver
    test: one version "1.74.0" with a plain Windows 2019 archive listed
    before a MinGW archive of the same platform version. The test tags
    files with platform "windows", so the runtime platform here is
    "windows"; the modelled resolver compares the raw platform string and
    translates nothing. */
module Scenarios {
  import opened Wrappers
  import opened Manifests
  import opened Resolver
  import opened Archives
  import CacheKeys
  import ResolverProperties
  import Install
  import Installers

  const PlainName := "boost-1.74.0-windows-2019.tar.gz"
  const MingwName := "boost-1.74.0-windows-2019-mingw-static-x86.tar.gz"
  const Releases := "https://github.com/MarkusJx/prebuilt-boost/releases/download/1.74.0/"

  const Plain := File(PlainName, Releases + PlainName, Some("windows"), None, Some("2019"), None, None)
  const Mingw := File(MingwName, Releases + MingwName, Some("windows"), Some("mingw"), Some("2019"),
                      Some("static"), Some("x86"))

  const TestManifest: Manifest := [VersionEntry(Some("1.74.0"), [Plain, Mingw])]

  /** With no toolset requested the untagged archive listed first wins,
      although the MinGW archive also passes every filter. */
  lemma NoToolsetPicksPlainArchive()
    ensures Resolve(TestManifest, Request("1.74.0", None, "2019", "windows"))
            == Success(Resolved(Releases + PlainName, PlainName))
  {
    var req := Request("1.74.0", None, "2019", "windows");
    assert IsFirstEntry(TestManifest, "1.74.0", 0);
    assert IsFirstAccepted(TestManifest[0].files, req, 0);
    ResolveChooses(TestManifest, req, 0, 0);
  }

  /** Requesting the "mingw" toolset skips the untagged archive. */
  lemma MingwToolsetPicksMingwArchive()
    ensures Resolve(TestManifest, Request("1.74.0", Some("mingw"), "2019", "windows"))
            == Success(Resolved(Releases + MingwName, MingwName))
  {
    var req := Request("1.74.0", Some("mingw"), "2019", "windows");
    assert IsFirstEntry(TestManifest, "1.74.0", 0);
    assert !Accepts(Plain, req);
    assert IsFirstAccepted(TestManifest[0].files, req, 1);
    ResolveChooses(TestManifest, req, 0, 1);
  }

  /** The Node.js name of the Windows platform is "win32", which the
      resolver does not translate, so files tagged "windows" never match it. */
  lemma RawWin32NeverMatchesWindowsTag()
    ensures Resolve(TestManifest, Request("1.74.0", None, "2019", "win32"))
            == Failure("Could not find boost version 1.74.0")
  {
    var req := Request("1.74.0", None, "2019", "win32");
    assert IsFirstEntry(TestManifest, "1.74.0", 0);
    assert forall j :: 0 <= j < |TestManifest[0].files| ==> !Accepts(TestManifest[0].files[j], req);
    ResolverProperties.FailureOnFirstEntry(TestManifest, req, 0);
    assert NotFound("1.74.0") == "Could not find boost version 1.74.0";
  }

  /** A request for a version the manifest lacks fails and names it. */
  lemma UnknownVersionFails()
    ensures Resolve(TestManifest, Request("1.75.0", None, "", "windows"))
            == Failure("Could not find boost version 1.75.0")
  {
    var req := Request("1.75.0", None, "", "windows");
    assert TestManifest[0].version != Some("1.75.0") by {
      assert TestManifest[0].version.value[3] != "1.75.0"[3];
    }
    ResolverProperties.MissingVersionFails(TestManifest, req);
    assert NotFound("1.75.0") == "Could not find boost version 1.75.0";
  }

  /** The default installer reports, on every platform, the archive's name
      without ".tar.gz" as `BOOST_VER` and the fixed "boost" directory as
      `BOOST_ROOT`. */
  lemma InstallV2Reports(world: Install.World, version: string, toolset: Option<string>, platformVersion: string,
                         rootDir: string, url: string, stem: string)
    requires world.fetched.Success? && world.downloadError.None? && world.extractError.None?
    requires Resolve(world.fetched.value, Request(version, toolset, platformVersion, world.platform))
             == Success(Resolved(url, stem + ".tar.gz"))
    ensures Installers.InstallV2(version, toolset, platformVersion, rootDir, world).outcome
            == Success(Install.Outputs(PathJoin(IsWin32(world.platform), rootDir, "boost"), stem))
  {
    InstallV2Delivers(world, version, toolset, platformVersion, rootDir, url, stem + ".tar.gz");
    BaseDirRoundTrip(stem);
  }

  /** When every modelled collaborator succeeds, `installV2` reports the
      fixed "boost" directory and the base name of the resolved file. */
  lemma InstallV2Delivers(world: Install.World, version: string, toolset: Option<string>, platformVersion: string,
                          rootDir: string, url: string, filename: string)
    requires world.fetched.Success? && world.downloadError.None? && world.extractError.None?
    requires Resolve(world.fetched.value, Request(version, toolset, platformVersion, world.platform))
             == Success(Resolved(url, filename))
    ensures Installers.InstallV2(version, toolset, platformVersion, rootDir, world).outcome
            == Success(Install.Outputs(PathJoin(IsWin32(world.platform), rootDir, "boost"), BaseDir(filename)))
  {
    var req := Install.RequestOf(version, toolset, platformVersion, world);
    assert Install.Delivers(req, world);
    assert Install.Chosen(req, world).filename == filename;
  }

  /** End to end on the default installer with the test manifest. */
  lemma InstallV2OnTestManifest(rootDir: string)
    ensures Installers.InstallV2("1.74.0", None, "2019", rootDir,
                                 Install.World("windows", Success(TestManifest), None, None, None)).outcome
            == Success(Install.Outputs(PathJoin(false, rootDir, "boost"), "boost-1.74.0-windows-2019"))
  {
    NoToolsetPicksPlainArchive();
    assert PlainName == "boost-1.74.0-windows-2019" + ".tar.gz";
    InstallV2Reports(Install.World("windows", Success(TestManifest), None, None, None), "1.74.0", None, "2019",
                     rootDir, Releases + PlainName, "boost-1.74.0-windows-2019");
  }

  /** An example cache key: version 1.74.0 and platform version 2019 on a
      win32 runner, with no toolset, arch or link. */
  lemma ExampleCacheKey()
    ensures CacheKeys.GetKey(CacheKeys.CacheOptions("1.74.0", None, "2019", None, None), "win32")
            == "boost-v1.74.0-win32-unknown-2019--unknown"
  {
  }
}

=== FILE: Wrappers.dfy ===
/** Failure-compatible wrappers used throughout the model.
    - Option<T> stands for a JSON property that may be absent (`hasOwnProperty`)
      or a value that may be `null`/`undefined`.
    - Result<T, E> stands for a call that either returns or throws. */
module Wrappers {

  datatype Option<+T> = None | Some(value: T) {

    /** The value if present, otherwise `default`. */
    function GetOr(default: T): T {
      match this
      case Some(v) => v
      case None => default
    }
  }

  datatype Result<+T, +E> = Success(value: T) | Failure(error: E)
}
